=== FILE: README.md ===
# Identity and access core of the Zoomies backend, in Dafny

This project models the identity and access decisions of a Flask/MongoDB
backend for an educational platform:

- the role guard that protects teacher routes (`role_guard`): find the caller's
  account by the token's email, then refuse it if it is missing, inactive,
  unverified or without an allowed role, in that order;
- account registration and login (`UserService.register`,
  `UserService.authenticate`) over the `users` collection, with the `User`
  record's defaults and the document `save` writes;
- the `users` collection's `$jsonSchema` validator, as a predicate on stored
  documents, proved equal to a generic schema check of the documents' BSON
  encoding;
- the marshmallow request schemas for authentication, the older user
  schemas, and the quiz and question schemas, each as the error dictionary
  `load` would raise (empty exactly when the request is accepted). For the
  quiz's list of questions the model reports which items have errors, but
  not each item's own error messages.

The collection is a `map<string, Doc>` keyed by email. Every document
property is a `Slot`: absent, null, or a value. The guard and `authenticate`
read properties the way Python's `doc.get(key, default)` does, with
truthiness. Request fields are an `Input`: absent, null, a value of the field's
type, or a value the field type cannot deserialize. The JSON keys a schema
does not declare are kept as a set, because marshmallow's default
`unknown = RAISE` refuses them.

Whatever the core cannot see is a parameter:

- bcrypt's hash and check are the `Hasher` pair of functions;
- the `random.randint(100000, 999999)` draw is an integer in that range;
- the two `datetime.utcnow()` readings are two integers;
- the mail outcome is `Delivered` or `Undelivered(reason)`;
- marshmallow's email format check is a predicate `isEmail`.

Modules follow the source files: `Collections` (app/db_init/collections.py
and the collection operations), `UserModel` (app/models/user.py), `UserService`,
`UserGuard`, `AuthSchema`, `UserSchema` and `QuizSchema`. Four supporting
modules complete the project:

- `Fields`: shared value types;
- `Decimal`: Python's `str` on a non-negative int, and its inverse;
- `Marshmallow`: the field checks the schemas use;
- `Lifecycle`: lemmas that connect registration to the guard and to the
  schemas.

## Model

| member | source | states |
|---|---|---|
| Decimal.ToDecimal | app/services/user_service.py:20 | `str(n)` of a non-negative int is a non-empty digit string with no leading zero ("0" for zero) |
| Decimal.ValueOfDecimal | app/services/user_service.py:20 | reading the numeral `str(n)` back gives `n` |
| Decimal.DecimalOfValue | app/services/user_service.py:20 | every canonical digit string is `str` of the number it denotes, so `str` is a bijection onto canonical numerals |
| Collections.FindByEmail | app/models/user.py:47-49 | lookup finds a document exactly when the email is a key, with no case normalisation, and the found document holds that email |
| Collections.DocValid | app/db_init/collections.py:7-82 | the validator admits a document iff `email`, `password` and `roles` are present and non-null. Every role must be admin, teacher or student. `is_active`, `verified_email`, `created_at` and `updated_at` must be absent or non-null. `years_of_experience` must fit a 32-bit int. Every other property may be absent or null |
| Collections.ValidatorMatchesSchema | app/db_init/collections.py:7-82 | the property-by-property reading `DocValid` agrees, for every document, with a generic `$jsonSchema` check of the document's BSON encoding against `UsersSchema`, the validator's `required` list and `properties` entries written out as data. Both directions are proved. A Python int outside 32 bits is encoded as a `long`, which the `int` bsonType refuses |
| Collections.RequiredKeysPresent | app/db_init/collections.py:10-25 | a document the validator admits has `email`, `password` and `roles`, and every role is admin, teacher or student |
| Collections.InsertOne | app/db_init/collections.py:7-82 | inserting into the validated collection succeeds iff the document passes the validator; on success exactly the new key is added, other documents are unchanged, and the store invariant is kept |
| UserModel.EffectiveRoles | app/models/user.py:20 | `None` or `[]` becomes `["student"]`; a non-empty list is kept; the result is never empty |
| UserModel.NewUser | app/models/user.py:7-27 | the constructor stores email, password, academic level, institution, activity flag, verification flag and OTP as passed, and makes roles non-empty as above. `created_at` and `updated_at` are the two clock readings, in order, so `updated_at >= created_at` when the clock does not step back |
| UserModel.DefaultUser | app/models/user.py:11-16 | the defaults are student role, active, unverified, no OTP and no profile fields |
| UserModel.ToDoc | app/models/user.py:31-42 | `save` writes exactly the ten keys (no `otp_created_at`), with the hashed password, the activity flag and the verification flag |
| UserModel.SaveRoundTrip | app/models/user.py:31-44 | the document `save` writes reads back as the same user, so nothing is lost |
| UserModel.SavedDocValid | app/models/user.py:31-43 | a saved user's document passes the collection validator iff all its roles are in the enum |
| UserModel.Save | app/models/user.py:29-44 | `save` inserts iff the roles pass the validator (otherwise `WriteError`), and returns the same document it inserted, which lookup then finds |
| UserService.Otp | app/services/user_service.py:20 | the OTP is six decimal digits, has no leading zero, and denotes the drawn integer |
| UserService.OtpCodesAreSixDigitNumerals | app/services/user_service.py:20 | every six-digit string without a leading zero is the OTP of one draw in [100000, 999999] |
| UserService.Register | app/services/user_service.py:11-39 | a known email gets "User already exists" with the store unchanged. An empty password makes the hasher raise `ValueError` before anything is written. Otherwise exactly one document is added, the saved form of the new user. It is unverified, holds the drawn OTP, the hash of the password (not the password itself), the given activity flag, roles and profile fields. The reply is the document, or the "email failed to send" error when the mail fails. Other accounts are untouched and the store invariant is kept |
| UserService.PersistBeforeMail | app/services/user_service.py:33-37 | the store after registering is the same whether or not the mail is delivered |
| UserService.Authenticate | app/services/user_service.py:41-54 | an unknown email gives "User not found"; a failed password check gives "Invalid credentials" whatever the verification state; a correct password on an unverified account gives the "Email not verified" error; success iff the password checks and `verified_email` is true; no exception on a valid store |
| UserService.RegisterThenAuthenticate | app/services/user_service.py:12-52 | with a sound hasher, logging in right after registering with the same non-empty password is refused only for the unverified email |
| UserService.RegisterTwice | app/services/user_service.py:14-16 | a second registration of the same email is refused and changes nothing |
| UserGuard.AnyAllowed | app/utils/user_guard.py:29-30 | the `any(...)` scan is true iff some role of the user is in the allowed list |
| UserGuard.Decide | app/utils/user_guard.py:20-33 | gives each of the five outcomes (not found 404, inactive 403, unverified 403, insufficient role 403, allow) iff its check fails and every earlier check passes. A missing `is_active` counts as active, a missing `verified_email` as unverified, and missing `roles` as none. A null `roles` raises |
| UserGuard.Authorize | app/utils/user_guard.py:17-31 | the guard allows iff the token's account exists, is active, is verified and holds an allowed role; it never faults on a store the validator admitted |
| UserGuard.Guarded | app/utils/user_guard.py:16-33 | the handler runs, on its original arguments, exactly when the guard allows. Every denial becomes a refusal with the guard's own message and status, and the route crashes exactly when the guard faults |
| UserGuard.EmptyAllowListDeniesAll | app/utils/user_guard.py:29-31 | with an empty allowed list, every existing, active, verified account is refused for its role |
| UserGuard.InactiveBeforeRole | app/utils/user_guard.py:20-31 | an inactive student asking for a teacher route is told "inactive", not "insufficient role" |
| AuthSchema.ProfileErrors | app/schemas/auth_schema.py:17-34 | the optional registration fields raise no error iff `class_level` and `school_institution` are absent, null or at least 2 characters. `is_active` must be absent or a boolean, since `load_default=True` does not admit null. The teacher fields must be absent, null or of their type. Errors only ever name these fields |
| AuthSchema.RegisterErrors | app/schemas/auth_schema.py:4-36 | registration is accepted iff the email is valid and the password has at least 6 characters. `class_level` and `school_institution` may be absent or null, and otherwise need at least 2 characters. `is_active` may be absent but not null. The teacher fields may be absent or null. No other key is allowed |
| AuthSchema.LoadRegister | app/schemas/auth_schema.py:4-36 | loading succeeds iff there are no errors. The loaded email and password are the ones sent. Each optional field is absent, null or the value sent, as in the request. `is_active` is true when absent, and the loaded fields meet their bounds |
| AuthSchema.LoginErrors | app/schemas/auth_schema.py:38-40 | login is accepted iff the email is valid and a password of any length is given |
| AuthSchema.VerifyErrors | app/schemas/auth_schema.py:43-49 | verify is accepted iff the email is valid and the OTP has exactly six characters |
| AuthSchema.VerifyIgnoresDigits | app/schemas/auth_schema.py:45-49 | an OTP of six letters passes: only the length is checked |
| AuthSchema.EmailRequestErrors | app/schemas/auth_schema.py:51-55 | resend and forgot-password requests are accepted iff they carry a valid email and nothing else |
| AuthSchema.ResetErrors | app/schemas/auth_schema.py:57-60 | a reset is accepted iff the email is valid, the OTP has six characters and the new password at least six |
| UserSchema.RegisterErrors | app/schemas/user_schema.py:4-27 | registration is accepted iff the email is valid and the password has at least 6 characters. `academic_level` and `school_institution` may be absent but not null, and otherwise need at least 2 characters |
| UserSchema.LoadRegister | app/schemas/user_schema.py:4-27 | loading succeeds iff there are no errors. The loaded email, password, academic level and institution are the values sent, with absent profile fields left out. `is_active` defaults to true, and loaded profile fields have at least 2 characters |
| UserSchema.LoginErrors | app/schemas/user_schema.py:30-32 | login needs an email and a password, with no length bound |
| UserSchema.VerifyErrors | app/schemas/user_schema.py:35-41 | verify needs an email and an OTP of exactly six characters |
| UserSchema.ResendErrors | app/schemas/user_schema.py:43-44 | resend needs only an email |
| UserSchema.NullInstitutionOnlyInAuthSchema | app/schemas/user_schema.py:22-26 | a null `school_institution` is refused here but accepted by the auth schema |
| QuizSchema.QuestionErrors | app/schemas/quiz_schema.py:4-26 | a question is accepted iff it has text, at least two options and a correct answer that is one of the options; when the fields are fine but the answer is not an option, the only error is on `correct_answer` |
| QuizSchema.BadQuestions | app/schemas/quiz_schema.py:88-93 | the question list is loaded in one batch. Some index is reported iff some question is invalid, and every reported index is an invalid question. If any question has a field error, exactly those questions are reported, because the wrong-answer check is then skipped for all of them. Otherwise exactly the invalid questions are reported |
| QuizSchema.FieldErrorHidesWrongAnswer | app/schemas/quiz_schema.py:20-26 | a question with no text hides the wrong answer of the next question: only index 0 is reported |
| QuizSchema.QuestionsCheck | app/schemas/quiz_schema.py:88-93 | the question list passes iff it is given, non-empty, and every question is valid |
| QuizSchema.QuizErrors | app/schemas/quiz_schema.py:29-96 | a quiz is accepted iff all of these hold: `teacher_id` is given; the title has 3 to 200 characters; the class level, status, Subject and quiz type are in their enumerations; the duration is at least 1; the questions are non-empty and all valid; description and start time are optional; no other key is sent (dump-only `created_at`/`updated_at` included) |
| Lifecycle.FreshAccountDenied | app/utils/user_guard.py:20-27 | a just-registered account is refused by the guard, as inactive or as unverified, for every allowed list |
| Lifecycle.IssuedOtpPassesVerify | app/services/user_service.py:20-30 | the OTP a registration stores passes the verify schema's OTP check |
| Lifecycle.StandardRolesAlwaysStored | app/db_init/collections.py:20-25 | `register` with roles `["student"]` or `["teacher"]` and a non-empty password always writes the document with that role |

## Left out

- JWT handling: token creation, signature and expiry checks, and `get_jwt_identity`. The guard starts from the identity the token names.
- The Flask routes and the mapping from errors to HTTP statuses. The guard's own statuses (404, 403) are modelled. The teacher route passes `years_of_experience`, `location`, `phone_number`, `teaching_subjects` and `bio` to `register`, which accepts none of them. Only `register`'s signature as written is modelled.
- Verify-email, resend-OTP, forgot-password and reset-password. The routes call them, but the service does not define them, so there is no behaviour to model. OTP expiry is left out too: no OTP timestamp is ever written, and the ten-minute window appears only in the mail text.
- SMTP sending. It is reduced to the outcome it reports.
- bcrypt. `hash` and `check` are uninterpreted, apart from the empty password that `generate_password_hash` refuses with `ValueError`. The random salt is folded into `hash`.
- UserService.Authenticate: a stored digest that is not a bcrypt hash makes bcrypt raise `ValueError`, and the validator admits such a digest. Here `check` is simply called and its result is left to the hasher. The ensures `StoreValid(s) ==> !r.Raised?` holds only because of this; the source would raise on such a document.
- Collections.InsertOne: a document is admitted only for an email not yet in the store. The real collection has no unique index, so two concurrent registrations could store two documents for one email. The email-keyed map cannot hold that.
- Concurrency in general. Each operation is one atomic step on the map.
- Values of the wrong BSON type inside a stored document. Such values are only possible where the validator was bypassed, so each stored property has its declared type or is absent or null.
- marshmallow's `fields.Email` format check. It is a parameter predicate.
- Type coercion by marshmallow (`"5"` for an integer, `"true"` for a boolean, the ISO 8601 parsing of `start_time`). It is abstracted to a given value or `Mistyped`.
- The per-item error messages inside the quiz's `questions` errors. Only the indices are modelled.
- A list element that is null or of the wrong type, inside `options`, `teaching_subjects` or `questions`.
- Which keys the loaded dictionary holds for the quiz schema. Only its errors are modelled: the routes use `validate`, not `load`, for quizzes.
- The `_id` that `insert_one` adds to the returned dictionary.
- The quiz persistence layer, app configuration and startup. The collection-creation side effect is left out, beyond the validator it installs.

## Notes on the code's behaviour

- Email addresses are matched exactly, not case-normalised.
- The validator admits an empty `roles` list. Only the `User` constructor replaces an empty or missing list with `["student"]`.
- No OTP timestamp is stored, so no OTP expires.
- A missing `is_active` counts as active. A null one counts as inactive.

=== FILE: auth_schema.dfy ===
/** The request schemas of app/schemas/auth_schema.py. Each schema gives the
    error dictionary `load` raises with (empty when the request is
    accepted); the email format check is the parameter `isEmail`. */
module AuthSchema {
  import opened Fields
  import opened Marshmallow

  /** A string field that may be left out or sent as null, and otherwise
      needs at least `n` characters. */
  predicate OptionalNullableText(f: Input<string>, n: nat) {
    f.Absent? || f.Null? || (f.Given? && |f.value| >= n)
  }

  /** A field with no validator that may be left out or sent as null. */
  predicate OptionalNullable<T>(f: Input<T>) {
    !f.Mistyped?
  }

  predicate EmailOk(isEmail: string -> bool, f: Input<string>) {
    f.Given? && isEmail(f.value)
  }

  function EmailCheck(isEmail: string -> bool, f: Input<string>): Option<Issue> {
    Check(f, true, false, isEmail)
  }

  // In every request type, `others` holds the JSON keys the schema does not
  // declare; a declared name listed there is ignored, so the accept
  // condition `others <= Fields` says no undeclared key was sent.

  // ---- UserRegisterSchema ----

  datatype RegisterRequest = RegisterRequest(
    email: Input<string>,
    password: Input<string>,
    classLevel: Input<string>,
    schoolInstitution: Input<string>,
    isActive: Input<bool>,
    yearsOfExperience: Input<int>,
    location: Input<string>,
    phoneNumber: Input<string>,
    teachingSubjects: Input<seq<string>>,
    bio: Input<string>,
    others: set<string>)   // the keys of the JSON object outside the declared fields

  const RegisterFields: set<string> := {
    "email", "password", "class_level", "school_institution", "is_active",
    "years_of_experience", "location", "phone_number", "teaching_subjects", "bio"}

  /** The registration data as loaded, with `is_active` defaulted. */
  datatype RegisterData = RegisterData(
    email: string,
    password: string,
    classLevel: Slot<string>,
    schoolInstitution: Slot<string>,
    isActive: bool,
    yearsOfExperience: Slot<int>,
    location: Slot<string>,
    phoneNumber: Slot<string>,
    teachingSubjects: Slot<seq<string>>,
    bio: Slot<string>)

  /** The registration fields past email and password. */
  const ProfileFields: set<string> := {
    "class_level", "school_institution", "is_active", "years_of_experience",
    "location", "phone_number", "teaching_subjects", "bio"}

  /** The errors of the optional profile fields: two texts of at least two
      characters and an `is_active` flag, none of them required, and all
      but the flag nullable. */
  function ProfileErrors(r: RegisterRequest): (e: Errors)
    ensures e.Keys <= ProfileFields
    ensures e == map[] <==>
      && OptionalNullableText(r.classLevel, 2)
      && OptionalNullableText(r.schoolInstitution, 2)
      && (r.isActive.Absent? || r.isActive.Given?)
      && OptionalNullable(r.yearsOfExperience)
      && OptionalNullable(r.location)
      && OptionalNullable(r.phoneNumber)
      && OptionalNullable(r.teachingSubjects)
      && OptionalNullable(r.bio)
  {
    Entry("class_level", Check(r.classLevel, false, true, MinLength(2)))
    + Entry("school_institution", Check(r.schoolInstitution, false, true, MinLength(2)))
    + Entry("is_active", Check(r.isActive, false, false, NoValidator()))
    + Entry("years_of_experience", Check(r.yearsOfExperience, false, true, NoValidator()))
    + Entry("location", Check(r.location, false, true, NoValidator()))
    + Entry("phone_number", Check(r.phoneNumber, false, true, NoValidator()))
    + Entry("teaching_subjects", Check(r.teachingSubjects, false, true, NoValidator()))
    + Entry("bio", Check(r.bio, false, true, NoValidator()))
  }

  function RegisterErrors(isEmail: string -> bool, r: RegisterRequest): (e: Errors)
    ensures e == map[] <==>
      && EmailOk(isEmail, r.email)
      && r.password.Given? && |r.password.value| >= 6
      && OptionalNullableText(r.classLevel, 2)
      && OptionalNullableText(r.schoolInstitution, 2)
      && (r.isActive.Absent? || r.isActive.Given?)
      && OptionalNullable(r.yearsOfExperience)
      && OptionalNullable(r.location)
      && OptionalNullable(r.phoneNumber)
      && OptionalNullable(r.teachingSubjects)
      && OptionalNullable(r.bio)
      && r.others <= RegisterFields
    ensures ("email" in e <==> !EmailOk(isEmail, r.email))
    ensures ("password" in e <==> !(r.password.Given? && |r.password.value| >= 6))
  {
    assert "email" !in ProfileFields && "password" !in ProfileFields;
    assert "email" in RegisterFields && "password" in RegisterFields;
    Entry("email", EmailCheck(isEmail, r.email))
    + Entry("password", Check(r.password, true, false, MinLength(6)))
    + ProfileErrors(r)
    + UnknownKeys(r.others, RegisterFields)
  }

  /** `UserRegisterSchema().load(json)`. */
  function LoadRegister(isEmail: string -> bool, r: RegisterRequest): (res: Result<RegisterData, Errors>)
    ensures res.Success? <==> RegisterErrors(isEmail, r) == map[]
    ensures res.Failure? ==> res.error == RegisterErrors(isEmail, r)
    ensures res.Success? ==> isEmail(res.value.email) && |res.value.password| >= 6
    ensures res.Success? ==> res.value.email == r.email.value && res.value.password == r.password.value
    ensures res.Success? ==> res.value.isActive == (r.isActive.Absent? || r.isActive.value)
    ensures res.Success? ==>
      && res.value.classLevel == Loaded(r.classLevel)
      && res.value.schoolInstitution == Loaded(r.schoolInstitution)
      && res.value.yearsOfExperience == Loaded(r.yearsOfExperience)
      && res.value.location == Loaded(r.location)
      && res.value.phoneNumber == Loaded(r.phoneNumber)
      && res.value.teachingSubjects == Loaded(r.teachingSubjects)
      && res.value.bio == Loaded(r.bio)
    ensures res.Success? && res.value.classLevel.Has? ==> |res.value.classLevel.value| >= 2
    ensures res.Success? && res.value.schoolInstitution.Has? ==> |res.value.schoolInstitution.value| >= 2
  {
    var e := RegisterErrors(isEmail, r);
    if e != map[] then Failure(e)
    else
      Success(RegisterData(
        r.email.value, r.password.value, Loaded(r.classLevel), Loaded(r.schoolInstitution),
        if r.isActive.Given? then r.isActive.value else true,
        Loaded(r.yearsOfExperience), Loaded(r.location), Loaded(r.phoneNumber),
        Loaded(r.teachingSubjects), Loaded(r.bio)))
  }

  // ---- UserLoginSchema ----

  datatype LoginRequest = LoginRequest(email: Input<string>, password: Input<string>, others: set<string>)

  const LoginFields: set<string> := {"email", "password"}

  /** Login needs an email and a password of any length. */
  function LoginErrors(isEmail: string -> bool, r: LoginRequest): (e: Errors)
    ensures e == map[] <==> EmailOk(isEmail, r.email) && r.password.Given? && r.others <= LoginFields
  {
    Entry("email", EmailCheck(isEmail, r.email))
    + Entry("password", Check(r.password, true, false, NoValidator()))
    + UnknownKeys(r.others, LoginFields)
  }

  // ---- VerifySchema ----

  datatype VerifyRequest = VerifyRequest(email: Input<string>, otp: Input<string>, others: set<string>)

  const VerifyFields: set<string> := {"email", "otp"}

  /** The OTP must be exactly six characters; what they are is not checked. */
  function VerifyErrors(isEmail: string -> bool, r: VerifyRequest): (e: Errors)
    ensures e == map[] <==>
      EmailOk(isEmail, r.email) && r.otp.Given? && |r.otp.value| == 6 && r.others <= VerifyFields
    ensures "otp" in e <==> !(r.otp.Given? && |r.otp.value| == 6)
  {
    Entry("email", EmailCheck(isEmail, r.email))
    + Entry("otp", Check(r.otp, true, false, ExactLength(6)))
    + UnknownKeys(r.others, VerifyFields)
  }

  // ---- ResendOTPSchema and ForgotPasswordSchema (the same single field) ----

  datatype EmailRequest = EmailRequest(email: Input<string>, others: set<string>)

  const EmailFields: set<string> := {"email"}

  /** A resend or forgot-password request carries an email and nothing else. */
  function EmailRequestErrors(isEmail: string -> bool, r: EmailRequest): (e: Errors)
    ensures e == map[] <==> EmailOk(isEmail, r.email) && r.others <= EmailFields
  {
    Entry("email", EmailCheck(isEmail, r.email))
    + UnknownKeys(r.others, EmailFields)
  }

  // ---- ResetPasswordSchema ----

  datatype ResetRequest = ResetRequest(
    email: Input<string>, otp: Input<string>, newPassword: Input<string>, others: set<string>)

  const ResetFields: set<string> := {"email", "otp", "new_password"}

  /** A reset needs a six-character OTP and a new password of at least six. */
  function ResetErrors(isEmail: string -> bool, r: ResetRequest): (e: Errors)
    ensures e == map[] <==>
      && EmailOk(isEmail, r.email)
      && r.otp.Given? && |r.otp.value| == 6
      && r.newPassword.Given? && |r.newPassword.value| >= 6
      && r.others <= ResetFields
  {
    Entry("email", EmailCheck(isEmail, r.email))
    + Entry("otp", Check(r.otp, true, false, ExactLength(6)))
    + Entry("new_password", Check(r.newPassword, true, false, MinLength(6)))
    + UnknownKeys(r.others, ResetFields)
  }

  /** Only the OTP's length is checked: six letters pass. */
  lemma VerifyIgnoresDigits(isEmail: string -> bool, email: string)
    requires isEmail(email)
    ensures VerifyErrors(isEmail, VerifyRequest(Given(email), Given("abcdef"), {})) == map[]
  {
  }
}

=== FILE: collections.dfy ===
/** The `users` collection: the shape of its documents, the `$jsonSchema`
    validator it is created with (app/db_init/collections.py), and the two
    collection operations the core uses, exact-match lookup and insertion. */
module Collections {
  import opened Fields

  /** One document of `users`, with one slot per property the validator
      names. Dates are integers (BSON stores milliseconds since the epoch). */
  datatype Doc = Doc(
    email: Slot<string>,
    password: Slot<string>,
    roles: Slot<seq<string>>,
    academicLevel: Slot<string>,
    schoolInstitution: Slot<string>,
    isActive: Slot<bool>,
    verifiedEmail: Slot<bool>,
    otp: Slot<string>,
    otpCreatedAt: Slot<int>,
    yearsOfExperience: Slot<int>,
    location: Slot<string>,
    phoneNumber: Slot<string>,
    teachingSubjects: Slot<seq<string>>,
    bio: Slot<string>,
    createdAt: Slot<int>,
    updatedAt: Slot<int>)

  /** The closed set of roles the validator's `enum` admits. */
  const RoleNames: set<string> := {"admin", "teacher", "student"}

  /** The range of a BSON `int` (32-bit); a larger Python int is stored as a
      `long`, which the `int` bsonType refuses. */
  const Int32Min: int := -0x8000_0000
  const Int32Max: int := 0x7fff_ffff

  /** The property names present in a document. */
  function PresentKeys(d: Doc): set<string> {
    (if d.email.Missing? then {} else {"email"})
    + (if d.password.Missing? then {} else {"password"})
    + (if d.roles.Missing? then {} else {"roles"})
    + (if d.academicLevel.Missing? then {} else {"academic_level"})
    + (if d.schoolInstitution.Missing? then {} else {"school_institution"})
    + (if d.isActive.Missing? then {} else {"is_active"})
    + (if d.verifiedEmail.Missing? then {} else {"verified_email"})
    + (if d.otp.Missing? then {} else {"otp"})
    + (if d.otpCreatedAt.Missing? then {} else {"otp_created_at"})
    + (if d.yearsOfExperience.Missing? then {} else {"years_of_experience"})
    + (if d.location.Missing? then {} else {"location"})
    + (if d.phoneNumber.Missing? then {} else {"phone_number"})
    + (if d.teachingSubjects.Missing? then {} else {"teaching_subjects"})
    + (if d.bio.Missing? then {} else {"bio"})
    + (if d.createdAt.Missing? then {} else {"created_at"})
    + (if d.updatedAt.Missing? then {} else {"updated_at"})
  }

  predicate KnownRoles(rs: seq<string>) {
    forall i :: 0 <= i < |rs| ==> rs[i] in RoleNames
  }

  /** A BSON value as the server sees it when it checks a document. */
  datatype Bson =
    | BNull
    | BString(str: string)
    | BBool(flag: bool)
    | BInteger(number: int)
    | BDate(millis: int)
    | BArray(items: seq<Bson>)

  /** The `bsonType` aliases the validator uses ("null", "string", "bool",
      "int", "long", "date", "array"). */
  datatype BsonType = TNull | TString | TBool | TInt | TLong | TDate | TArray

  /** The `bsonType` of a value. A Python int that does not fit 32 bits is
      encoded as a 64-bit `long`. */
  function TypeOf(v: Bson): BsonType {
    match v
    case BNull => TNull
    case BString(_) => TString
    case BBool(_) => TBool
    case BInteger(n) => if Int32Min <= n <= Int32Max then TInt else TLong
    case BDate(_) => TDate
    case BArray(_) => TArray
  }

  /** What an `items` keyword asks of every element of an array. */
  datatype ItemRule = AnyItem | ItemEnum(names: set<string>) | ItemType(t: BsonType)

  /** One entry of `properties`: the admitted `bsonType`s and the `items`
      rule, which applies only to arrays. */
  datatype PropRule = PropRule(types: set<BsonType>, items: ItemRule)

  /** A `$jsonSchema` of the shape the repository uses: a `required` list
      and a `properties` map; properties it does not name are unconstrained. */
  datatype JsonSchema = JsonSchema(required: set<string>, properties: map<string, PropRule>)

  predicate ItemAdmits(rule: ItemRule, v: Bson) {
    match rule
    case AnyItem => true
    case ItemEnum(names) => v.BString? && v.str in names
    case ItemType(t) => TypeOf(v) == t
  }

  predicate PropAdmits(rule: PropRule, v: Bson) {
    && TypeOf(v) in rule.types
    && (v.BArray? ==> forall i :: 0 <= i < |v.items| ==> ItemAdmits(rule.items, v.items[i]))
  }

  /** Whether the server accepts a document under a schema. */
  predicate Admits(schema: JsonSchema, doc: map<string, Bson>) {
    && schema.required <= doc.Keys
    && forall k :: k in doc && k in schema.properties ==> PropAdmits(schema.properties[k], doc[k])
  }

  /** The sixteen properties the `users` validator names. */
  const PropertyNames: set<string> := {
    "email", "password", "roles", "academic_level", "school_institution",
    "is_active", "verified_email", "otp", "otp_created_at",
    "years_of_experience", "location", "phone_number", "teaching_subjects",
    "bio", "created_at", "updated_at"}

  /** The `properties` entry of the `users` validator, one per name. */
  function UsersRule(k: string): PropRule {
    if k == "email" then PropRule({TString}, AnyItem)
    else if k == "password" then PropRule({TString}, AnyItem)
    else if k == "roles" then PropRule({TArray}, ItemEnum(RoleNames))
    else if k == "academic_level" then PropRule({TString, TNull}, AnyItem)
    else if k == "school_institution" then PropRule({TString, TNull}, AnyItem)
    else if k == "is_active" then PropRule({TBool}, AnyItem)
    else if k == "verified_email" then PropRule({TBool}, AnyItem)
    else if k == "otp" then PropRule({TString, TNull}, AnyItem)
    else if k == "otp_created_at" then PropRule({TDate, TNull}, AnyItem)
    else if k == "years_of_experience" then PropRule({TInt, TNull}, AnyItem)
    else if k == "location" then PropRule({TString, TNull}, AnyItem)
    else if k == "phone_number" then PropRule({TString, TNull}, AnyItem)
    else if k == "teaching_subjects" then PropRule({TArray, TNull}, ItemType(TString))
    else if k == "bio" then PropRule({TString, TNull}, AnyItem)
    else if k == "created_at" then PropRule({TDate}, AnyItem)
    else PropRule({TDate}, AnyItem)
  }

  /** The validator `users` is created with. */
  const UsersSchema: JsonSchema :=
    JsonSchema({"email", "password", "roles"}, map k | k in PropertyNames :: UsersRule(k))

  /** A present property's value: null, or the value encoded. */
  function Put<T>(f: Slot<T>, enc: T -> Bson): Bson {
    if f.Has? then enc(f.value) else BNull
  }

  function Strings(ss: seq<string>): (r: seq<Bson>)
    ensures |r| == |ss|
    ensures forall i :: 0 <= i < |ss| ==> r[i] == BString(ss[i])
  {
    seq(|ss|, i requires 0 <= i < |ss| => BString(ss[i]))
  }

  /** Whether property `k` is present in the document. */
  predicate Present(d: Doc, k: string) {
    if k == "email" then !d.email.Missing?
    else if k == "password" then !d.password.Missing?
    else if k == "roles" then !d.roles.Missing?
    else if k == "academic_level" then !d.academicLevel.Missing?
    else if k == "school_institution" then !d.schoolInstitution.Missing?
    else if k == "is_active" then !d.isActive.Missing?
    else if k == "verified_email" then !d.verifiedEmail.Missing?
    else if k == "otp" then !d.otp.Missing?
    else if k == "otp_created_at" then !d.otpCreatedAt.Missing?
    else if k == "years_of_experience" then !d.yearsOfExperience.Missing?
    else if k == "location" then !d.location.Missing?
    else if k == "phone_number" then !d.phoneNumber.Missing?
    else if k == "teaching_subjects" then !d.teachingSubjects.Missing?
    else if k == "bio" then !d.bio.Missing?
    else if k == "created_at" then !d.createdAt.Missing?
    else !d.updatedAt.Missing?
  }

  /** The value pymongo sends under property `k`. */
  function Property(d: Doc, k: string): Bson {
    if k == "email" then Put(d.email, s => BString(s))
    else if k == "password" then Put(d.password, s => BString(s))
    else if k == "roles" then Put(d.roles, rs => BArray(Strings(rs)))
    else if k == "academic_level" then Put(d.academicLevel, s => BString(s))
    else if k == "school_institution" then Put(d.schoolInstitution, s => BString(s))
    else if k == "is_active" then Put(d.isActive, b => BBool(b))
    else if k == "verified_email" then Put(d.verifiedEmail, b => BBool(b))
    else if k == "otp" then Put(d.otp, s => BString(s))
    else if k == "otp_created_at" then Put(d.otpCreatedAt, t => BDate(t))
    else if k == "years_of_experience" then Put(d.yearsOfExperience, n => BInteger(n))
    else if k == "location" then Put(d.location, s => BString(s))
    else if k == "phone_number" then Put(d.phoneNumber, s => BString(s))
    else if k == "teaching_subjects" then Put(d.teachingSubjects, ss => BArray(Strings(ss)))
    else if k == "bio" then Put(d.bio, s => BString(s))
    else if k == "created_at" then Put(d.createdAt, t => BDate(t))
    else Put(d.updatedAt, t => BDate(t))
  }

  /** The BSON document pymongo sends for a `Doc`: the present slots, each
      under its property name. */
  function Encode(d: Doc): map<string, Bson> {
    map k | k in PropertyNames && Present(d, k) :: Property(d, k)
  }

  /** The collection validator, property by property: `email`, `password`
      and `roles` are required; properties whose bsonType does not list
      "null" may be absent but not null; every role is in the enum;
      `years_of_experience` fits a BSON int. Properties typed
      `["string", "null"]` (and the nullable array and date) accept every
      slot. */
  predicate DocValid(d: Doc) {
    && d.email.Has?
    && d.password.Has?
    && d.roles.Has? && KnownRoles(d.roles.value)
    && !d.isActive.Null?
    && !d.verifiedEmail.Null?
    && (d.yearsOfExperience.Has? ==> Int32Min <= d.yearsOfExperience.value <= Int32Max)
    && !d.createdAt.Null?
    && !d.updatedAt.Null?
  }

  /** The encoding holds a present property under its name, and the
      schema's entry for a named property is `UsersRule`. */
  lemma EncodedAt(d: Doc, k: string)
    requires k in PropertyNames
    ensures k in UsersSchema.properties && UsersSchema.properties[k] == UsersRule(k)
    ensures k in Encode(d) <==> Present(d, k)
    ensures k in Encode(d) ==> Encode(d)[k] == Property(d, k)
  {
  }

  /** What the schema's entry for property `k` demands of a document whose
      property `k` is present. */
  lemma AdmittedAt(d: Doc, k: string)
    requires k in PropertyNames && Present(d, k)
    requires PropAdmits(UsersRule(k), Property(d, k))
    ensures k == "email" ==> d.email.Has?
    ensures k == "password" ==> d.password.Has?
    ensures k == "roles" ==> d.roles.Has? && KnownRoles(d.roles.value)
    ensures k == "is_active" ==> d.isActive.Has?
    ensures k == "verified_email" ==> d.verifiedEmail.Has?
    ensures k == "years_of_experience" && d.yearsOfExperience.Has? ==>
              Int32Min <= d.yearsOfExperience.value <= Int32Max
    ensures k == "created_at" ==> d.createdAt.Has?
    ensures k == "updated_at" ==> d.updatedAt.Has?
  {
    if k == "roles" {
      var v := Property(d, k);
      forall i | 0 <= i < |d.roles.value| ensures d.roles.value[i] in RoleNames {
        assert ItemAdmits(ItemEnum(RoleNames), v.items[i]);
      }
    }
  }

  /** An admitted document satisfies the entry of each present property,
      with what that entry demands. */
  lemma AdmitsAt(d: Doc, k: string)
    requires Admits(UsersSchema, Encode(d))
    requires k in PropertyNames
    ensures k in UsersSchema.required ==> Present(d, k)
    ensures Present(d, k) ==> PropAdmits(UsersRule(k), Property(d, k))
  {
    EncodedAt(d, k);
  }

  lemma ValidIfAdmitted(d: Doc)
    requires Admits(UsersSchema, Encode(d))
    ensures DocValid(d)
  {
    AdmitsAt(d, "email");
    AdmittedAt(d, "email");
    AdmitsAt(d, "password");
    AdmittedAt(d, "password");
    AdmitsAt(d, "roles");
    AdmittedAt(d, "roles");
    AdmitsAt(d, "is_active");
    if Present(d, "is_active") { AdmittedAt(d, "is_active"); }
    AdmitsAt(d, "verified_email");
    if Present(d, "verified_email") { AdmittedAt(d, "verified_email"); }
    AdmitsAt(d, "years_of_experience");
    if Present(d, "years_of_experience") { AdmittedAt(d, "years_of_experience"); }
    AdmitsAt(d, "created_at");
    if Present(d, "created_at") { AdmittedAt(d, "created_at"); }
    AdmitsAt(d, "updated_at");
    if Present(d, "updated_at") { AdmittedAt(d, "updated_at"); }
  }

  /** A document `DocValid` admits satisfies the entry of each present
      property. */
  lemma ValidAt(d: Doc, k: string)
    requires DocValid(d)
    requires k in PropertyNames && Present(d, k)
    ensures PropAdmits(UsersRule(k), Property(d, k))
  {
    if k == "roles" {
      var v := Property(d, k);
      forall i | 0 <= i < |v.items| ensures ItemAdmits(ItemEnum(RoleNames), v.items[i]) {
        assert v.items[i] == BString(d.roles.value[i]);
      }
    } else if k == "teaching_subjects" && d.teachingSubjects.Has? {
      var v := Property(d, k);
      forall i | 0 <= i < |v.items| ensures ItemAdmits(ItemType(TString), v.items[i]) {
        assert v.items[i] == BString(d.teachingSubjects.value[i]);
      }
    }
  }

  lemma AdmittedIfValid(d: Doc)
    requires DocValid(d)
    ensures Admits(UsersSchema, Encode(d))
  {
    var doc := Encode(d);
    EncodedAt(d, "email");
    EncodedAt(d, "password");
    EncodedAt(d, "roles");
    forall k | k in doc && k in UsersSchema.properties
      ensures PropAdmits(UsersSchema.properties[k], doc[k])
    {
      EncodedAt(d, k);
      ValidAt(d, k);
    }
  }

  /** `DocValid` is the server's reading of `UsersSchema`: a document is
      admitted exactly when its BSON encoding satisfies the schema. */
  lemma ValidatorMatchesSchema(d: Doc)
    ensures DocValid(d) <==> Admits(UsersSchema, Encode(d))
  {
    if DocValid(d) {
      AdmittedIfValid(d);
    }
    if Admits(UsersSchema, Encode(d)) {
      ValidIfAdmitted(d);
    }
  }

  /** A document the validator admits has the three required keys, and
      only ever the three known roles. */
  lemma RequiredKeysPresent(d: Doc)
    requires DocValid(d)
    ensures {"email", "password", "roles"} <= PresentKeys(d)
    ensures forall i :: 0 <= i < |d.roles.value| ==>
              (d.roles.value[i] == "admin" || d.roles.value[i] == "teacher" || d.roles.value[i] == "student")
  {
  }

  /** The collection, abstracted to one document per email address. */
  type Store = map<string, Doc>

  /** Every document sits under the email it holds. */
  predicate Keyed(s: Store) {
    forall k :: k in s ==> s[k].email == Has(k)
  }

  /** The invariant a collection created with the validator keeps. */
  predicate StoreValid(s: Store) {
    Keyed(s) && forall k :: k in s ==> DocValid(s[k])
  }

  /** `find_one({"email": email})`: an exact match on the stored string,
      with no case folding or trimming. */
  function FindByEmail(s: Store, email: string): (r: Option<Doc>)
    ensures r.Some? <==> email in s
    ensures r.Some? ==> r.value == s[email]
    ensures Keyed(s) && r.Some? ==> r.value.email == Has(email)
  {
    if email in s then Some(s[email]) else None
  }

  /** `insert_one(doc)` into the validated collection: a document the
      validator refuses raises `WriteError` and changes nothing. The email
      is fresh, as the map abstraction holds one document per email. */
  function InsertOne(s: Store, d: Doc): (r: Option<Store>)
    requires d.email.Has? ==> d.email.value !in s
    ensures r.Some? <==> DocValid(d)
    ensures r.Some? ==> r.value.Keys == s.Keys + {d.email.value}
    ensures r.Some? ==> r.value[d.email.value] == d
    ensures r.Some? ==> forall k :: k in s ==> r.value[k] == s[k]
    ensures r.Some? && StoreValid(s) ==> StoreValid(r.value)
  {
    if DocValid(d) then Some(s[d.email.value := d]) else None
  }
}

=== FILE: decimal.dfy ===
/** Python's `str(n)` for a non-negative integer, and the reading back of a
    string of decimal digits. */
module Decimal {

  predicate IsDigit(c: char) {
    '0' <= c <= '9'
  }

  predicate AllDigits(s: string) {
    forall i :: 0 <= i < |s| ==> IsDigit(s[i])
  }

  function DigitChar(d: nat): (c: char)
    requires d < 10
    ensures IsDigit(c)
    ensures c as int - '0' as int == d
  {
    ('0' as int + d) as char
  }

  function DigitValue(c: char): (d: nat)
    requires IsDigit(c)
    ensures d < 10
  {
    c as int - '0' as int
  }

  function Pow10(k: nat): (p: nat)
    ensures p >= 1
  {
    if k == 0 then 1 else 10 * Pow10(k - 1)
  }

  /** The decimal numeral of `n`, most significant digit first, as Python's
      `str` writes a non-negative `int`: no sign and no leading zero. */
  function ToDecimal(n: nat): (s: string)
    ensures |s| >= 1
    ensures AllDigits(s)
    ensures n > 0 ==> s[0] != '0'
    ensures n == 0 ==> s == "0"
    decreases n
  {
    if n < 10 then [DigitChar(n)] else ToDecimal(n / 10) + [DigitChar(n % 10)]
  }

  /** The number a string of decimal digits denotes. */
  function Value(s: string): nat
    requires AllDigits(s)
  {
    if s == [] then 0 else Value(s[..|s| - 1]) * 10 + DigitValue(s[|s| - 1])
  }

  /** Reading the numeral back gives the number. */
  lemma {:induction false} ValueOfDecimal(n: nat)
    ensures Value(ToDecimal(n)) == n
    decreases n
  {
    if n >= 10 {
      var s := ToDecimal(n);
      assert s[..|s| - 1] == ToDecimal(n / 10);
      ValueOfDecimal(n / 10);
    }
  }

  /** A numeral whose first digit is not zero denotes a positive number. */
  lemma {:induction false} LeadingDigitPositive(s: string)
    requires |s| >= 1 && AllDigits(s) && s[0] != '0'
    ensures Value(s) > 0
    decreases |s|
  {
    if |s| > 1 {
      var p := s[..|s| - 1];
      assert p[0] == s[0];
      LeadingDigitPositive(p);
    }
  }

  /** Every canonical numeral (no leading zero unless it is "0") is the
      numeral of the number it denotes: `ToDecimal` is onto the canonical
      numerals, so together with `ValueOfDecimal` it is a bijection. */
  lemma {:induction false} DecimalOfValue(s: string)
    requires |s| >= 1 && AllDigits(s)
    requires |s| == 1 || s[0] != '0'
    ensures ToDecimal(Value(s)) == s
    decreases |s|
  {
    if |s| > 1 {
      var p := s[..|s| - 1];
      assert p[0] == s[0];
      LeadingDigitPositive(p);
      DecimalOfValue(p);
      var n := Value(s);
      assert n / 10 == Value(p) && n % 10 == DigitValue(s[|s| - 1]);
      assert s == p + [s[|s| - 1]];
    }
  }

  /** A number in [10^(k-1), 10^k) has a numeral of exactly k digits. */
  lemma {:induction false} DecimalLength(n: nat, k: nat)
    requires k >= 1 && Pow10(k - 1) <= n < Pow10(k)
    ensures |ToDecimal(n)| == k
    decreases k
  {
    if k > 1 {
      assert Pow10(k - 2) <= n / 10 < Pow10(k - 1);
      DecimalLength(n / 10, k - 1);
    }
  }

  /** A numeral of k digits denotes a number below 10^k. */
  lemma {:induction false} ValueBelow(s: string)
    requires AllDigits(s)
    ensures Value(s) < Pow10(|s|)
    decreases |s|
  {
    if s != [] {
      ValueBelow(s[..|s| - 1]);
    }
  }

  /** A numeral of k digits with a non-zero first digit denotes at least
      10^(k-1). */
  lemma {:induction false} ValueAtLeast(s: string)
    requires |s| >= 1 && AllDigits(s) && s[0] != '0'
    ensures Value(s) >= Pow10(|s| - 1)
    decreases |s|
  {
    if |s| > 1 {
      var p := s[..|s| - 1];
      assert p[0] == s[0];
      ValueAtLeast(p);
    }
  }

  lemma SixDigitBounds()
    ensures Pow10(5) == 100000 && Pow10(6) == 1000000
  {
    assert Pow10(1) == 10;
    assert Pow10(2) == 100;
    assert Pow10(3) == 1000;
    assert Pow10(4) == 10000;
  }
}

=== FILE: fields.dfy ===
/** Small value types shared by every module: optional values, results,
    and the three states a property of a stored document can be in. */
module Fields {

  /** A Python value that may be `None`. */
  datatype Option<+T> = None | Some(value: T)

  /** A computation that either produced a value or a failure description. */
  datatype Result<+T, +E> = Success(value: T) | Failure(error: E)

  /** A property of a dictionary-shaped record (a MongoDB document, or the
      dictionary a schema loads): the key is absent, present with `None`
      (BSON null), or present with a value. */
  datatype Slot<+T> = Missing | Null | Has(value: T)

  /** The service layer's `(value, error)` pair, plus the case where the
      Python code raises instead of returning. */
  datatype Outcome<+T> = Ok(value: T) | Err(message: string) | Raised(exception: string)

  /** Python's `not not doc.get(key, default)` for a boolean property:
      an absent key yields the default and a null value is falsy. */
  function Truthy(f: Slot<bool>, default: bool): (b: bool)
    ensures f.Missing? ==> b == default
    ensures f.Null? ==> !b
    ensures f.Has? ==> b == f.value
  {
    match f
    case Missing => default
    case Null => false
    case Has(v) => v
  }

  /** A Python value that may be `None`, written under its key. */
  function Stored<T>(o: Option<T>): (f: Slot<T>)
    ensures !f.Missing?
    ensures f.Null? <==> o.None?
    ensures o.Some? ==> f == Has(o.value)
  {
    match o
    case None => Null
    case Some(v) => Has(v)
  }
}

=== FILE: lifecycle.dfy ===
/** How the pieces meet: what a registration leaves behind as seen by the
    guard and by the request schemas. */
module Lifecycle {
  import opened Fields
  import opened Collections
  import opened UserModel
  import opened UserService
  import opened UserGuard
  import AuthSchema
  import Marshmallow

  /** A freshly registered account is never let through the role guard:
      an inactive one is refused as inactive, an active one as unverified,
      whatever roles the route allows. */
  lemma FreshAccountDenied(h: Hasher, s: Store, email: string, password: string,
                           roles: Option<seq<string>>, academicLevel: Option<string>,
                           schoolInstitution: Option<string>, isActive: bool,
                           draw: int, now1: int, now2: int, mail: MailResult,
                           allowed: seq<string>)
    requires OtpLow <= draw <= OtpHigh
    requires email !in s && password != "" && KnownRoles(EffectiveRoles(roles))
    ensures var r := Register(h, s, email, password, roles, academicLevel, schoolInstitution,
                              isActive, draw, now1, now2, mail);
            Authorize(r.store, email, allowed)
            == if isActive then Deny(UnverifiedMsg, 403) else Deny(InactiveMsg, 403)
  {
  }

  /** The code a registration stores passes `VerifySchema`'s
      OTP check. */
  lemma IssuedOtpPassesVerify(h: Hasher, s: Store, email: string, password: string,
                              roles: Option<seq<string>>, academicLevel: Option<string>,
                              schoolInstitution: Option<string>, isActive: bool,
                              draw: int, now1: int, now2: int, mail: MailResult,
                              isEmail: string -> bool)
    requires OtpLow <= draw <= OtpHigh
    requires email !in s && password != "" && KnownRoles(EffectiveRoles(roles)) && isEmail(email)
    ensures var r := Register(h, s, email, password, roles, academicLevel, schoolInstitution,
                              isActive, draw, now1, now2, mail);
            r.store[email].otp.Has? &&
            AuthSchema.VerifyErrors(isEmail, AuthSchema.VerifyRequest(
              Marshmallow.Given(email), Marshmallow.Given(r.store[email].otp.value), {})) == map[]
  {
  }

  /** `register` called with roles `["student"]` or `["teacher"]` and a
      non-empty password always writes the document: the validator never
      refuses it. */
  lemma StandardRolesAlwaysStored(h: Hasher, s: Store, email: string, password: string,
                               role: string, academicLevel: Option<string>,
                               schoolInstitution: Option<string>, isActive: bool,
                               draw: int, now1: int, now2: int, mail: MailResult)
    requires OtpLow <= draw <= OtpHigh
    requires email !in s && password != "" && (role == "student" || role == "teacher")
    ensures var r := Register(h, s, email, password, Some([role]), academicLevel,
                              schoolInstitution, isActive, draw, now1, now2, mail);
            email in r.store && r.store[email].roles == Has([role]) && !r.reply.Raised?
  {
  }
}

=== FILE: marshmallow.dfy ===
/** The part of marshmallow's `Schema.load` the schemas rely on: per-field
    required / null / type / validator checks, refusal of undeclared keys,
    and the error dictionary keyed by field name. */
module Marshmallow {
  import opened Fields

  /** One key of the incoming JSON object, as the field declared for it sees
      it: absent, `null`, a value the field type deserializes, or a value it
      cannot deserialize ("Not a valid string.", "Not a valid integer.", ...). */
  datatype Input<+T> = Absent | Null | Given(value: T) | Mistyped

  /** The kind of message a field's error list carries. */
  datatype Issue =
    | Required          // "Missing data for required field."
    | NotNull           // "Field may not be null."
    | Invalid           // the field type's "invalid" message
    | Rejected          // a validator (Length, OneOf, Range, Email, schema rule) refused
    | Unknown           // "Unknown field."
    | BadItems(at: set<nat>)  // nested items with errors, by index

  /** `ValidationError.messages`: field name to its problem. */
  type Errors = map<string, Issue>

  /** One declared field: `required`, `allow_none` and its validators. A
      missing optional field and an allowed `None` skip the validators. */
  function Check<T>(f: Input<T>, required: bool, allowNone: bool, valid: T -> bool): (r: Option<Issue>)
    ensures r.None? <==> (f.Absent? && !required) || (f.Null? && allowNone) || (f.Given? && valid(f.value))
    ensures r == Some(Required) <==> f.Absent? && required
  {
    match f
    case Absent => if required then Some(Required) else None
    case Null => if allowNone then None else Some(NotNull)
    case Mistyped => Some(Invalid)
    case Given(v) => if valid(v) then None else Some(Rejected)
  }

  /** The error entry for one field, if it has a problem. */
  function Entry(name: string, issue: Option<Issue>): (e: Errors)
    ensures name in e <==> issue.Some?
    ensures issue.Some? ==> e[name] == issue.value
    ensures e.Keys <= {name}
  {
    if issue.Some? then map[name := issue.value] else map[]
  }

  /** With the default `unknown = RAISE`, every key the schema does not
      declare for loading is an error. */
  function UnknownKeys(keys: set<string>, declared: set<string>): (e: Errors)
    ensures e.Keys == keys - declared
  {
    map k | k in keys && k !in declared :: Unknown
  }

  /** The loaded value of an optional field that passed its checks. */
  function Loaded<T>(f: Input<T>): (v: Slot<T>)
    requires !f.Mistyped?
    ensures f.Absent? <==> v.Missing?
    ensures f.Null? <==> v.Null?
    ensures f.Given? ==> v == Has(f.value)
  {
    match f
    case Absent => Slot.Missing
    case Null => Slot.Null
    case Given(x) => Has(x)
  }

  function NoValidator<T>(): T -> bool {
    _ => true
  }

  function MinLength(n: nat): string -> bool {
    s => |s| >= n
  }

  function ExactLength(n: nat): string -> bool {
    s => |s| == n
  }

  function OneOf(choices: set<string>): string -> bool {
    s => s in choices
  }
}

=== FILE: quiz_schema.dfy ===
/** `QuestionSchema` and `QuizSchema` of app/schemas/quiz_schema.py as error
    dictionaries. A start time is modelled as the instant it parses to. */
module QuizSchema {
  import opened Fields
  import opened Marshmallow

  datatype QuestionRequest = QuestionRequest(
    text: Input<string>,
    options: Input<seq<string>>,
    correctAnswer: Input<string>,
    others: set<string>)   // the keys of the JSON object outside the declared fields

  const QuestionFields: set<string> := {"text", "options", "correct_answer"}

  /** The field-level errors of a question. */
  function QuestionFieldErrors(q: QuestionRequest): Errors {
    Entry("text", Check(q.text, true, false, NoValidator()))
    + Entry("options", Check(q.options, true, false, (o: seq<string>) => |o| >= 2))
    + Entry("correct_answer", Check(q.correctAnswer, true, false, NoValidator()))
    + UnknownKeys(q.others, QuestionFields)
  }

  /** A well-formed question: text, at least two options, and a correct
      answer that is one of them. */
  predicate QuestionValid(q: QuestionRequest) {
    && q.text.Given?
    && q.options.Given? && |q.options.value| >= 2
    && q.correctAnswer.Given?
    && (exists i :: 0 <= i < |q.options.value| && q.options.value[i] == q.correctAnswer.value)
    && q.others <= QuestionFields
  }

  /** `QuestionSchema` errors. `validate_correct_answer` runs only when no
      field has an error, and then files its complaint under
      `correct_answer`. */
  function QuestionErrors(q: QuestionRequest): (e: Errors)
    ensures e == map[] <==> QuestionValid(q)
    ensures QuestionFieldErrors(q) == map[] && !QuestionValid(q) ==> e == map["correct_answer" := Rejected]
  {
    var f := QuestionFieldErrors(q);
    if f != map[] then f
    else if q.correctAnswer.value in q.options.value then map[]
    else map["correct_answer" := Rejected]
  }

  datatype QuizRequest = QuizRequest(
    teacherId: Input<string>,
    title: Input<string>,
    description: Input<string>,
    classLevel: Input<string>,
    status: Input<string>,
    subject: Input<string>,
    quizType: Input<string>,
    startTime: Input<int>,
    durationMinutes: Input<int>,
    questions: Input<seq<QuestionRequest>>,
    others: set<string>)   // the keys of the JSON object outside the declared fields

  /** The fields `load` accepts; `created_at` and `updated_at` are
      dump-only, so a request carrying them is refused as unknown. */
  const QuizFields: set<string> := {
    "teacher_id", "title", "description", "class_level", "status", "Subject",
    "quiz_type", "start_time", "duration_minutes", "questions"}

  const ClassLevels: set<string> := {"O-level", "A-level", "SAT", "IB"}
  const Difficulties: set<string> := {"easy", "medium", "hard"}
  const Subjects: set<string> := {"Mathematics", "Biology", "Chemistry", "Physics", "English"}
  const QuizTypes: set<string> := {"anytime", "scheduled"}

  /** The indices of the questions with a field-level error. */
  function FieldErrorQuestions(qs: seq<QuestionRequest>): (bad: set<nat>)
    ensures forall i :: 0 <= i < |qs| ==> (i in bad <==> QuestionFieldErrors(qs[i]) != map[])
    ensures forall i :: i in bad ==> i < |qs|
  {
    set i: nat | i < |qs| && QuestionFieldErrors(qs[i]) != map[]
  }

  /** The indices reported for a list of questions. The list is loaded in
      one `many=True` pass, so a field error in any question skips
      `validate_correct_answer` for all of them: the wrong-answer check is
      reported only when no question has a field error. */
  function BadQuestions(qs: seq<QuestionRequest>): (bad: set<nat>)
    ensures bad != {} <==> exists i :: 0 <= i < |qs| && !QuestionValid(qs[i])
    ensures forall i :: i in bad ==> i < |qs| && !QuestionValid(qs[i])
    ensures FieldErrorQuestions(qs) != {} ==> bad == FieldErrorQuestions(qs)
    ensures FieldErrorQuestions(qs) == {} ==>
      forall i :: 0 <= i < |qs| ==> (i in bad <==> !QuestionValid(qs[i]))
  {
    var fieldBad := FieldErrorQuestions(qs);
    if fieldBad != {} then
      assert exists i :: i in fieldBad;
      fieldBad
    else
      set i: nat | i < |qs| && QuestionErrors(qs[i]) != map[]
  }

  /** One question's field error hides another question's wrong answer. */
  lemma FieldErrorHidesWrongAnswer()
    ensures var q0 := QuestionRequest(Absent, Given(["a", "b"]), Given("a"), {});
            var q1 := QuestionRequest(Given("t"), Given(["a", "b"]), Given("c"), {});
            !QuestionValid(q1) && BadQuestions([q0, q1]) == {0}
  {
  }

  /** `fields.List(fields.Nested(QuestionSchema), validate=Length(min=1))`:
      item errors first, then the length. */
  function QuestionsCheck(f: Input<seq<QuestionRequest>>): (r: Option<Issue>)
    ensures r.None? <==>
      f.Given? && |f.value| >= 1 && forall i :: 0 <= i < |f.value| ==> QuestionValid(f.value[i])
  {
    match f
    case Absent => Some(Required)
    case Null => Some(NotNull)
    case Mistyped => Some(Invalid)
    case Given(qs) =>
      var bad := BadQuestions(qs);
      if bad != {} then Some(BadItems(bad))
      else if |qs| < 1 then Some(Rejected)
      else None
  }

  predicate Among(f: Input<string>, choices: set<string>) {
    f.Given? && f.value in choices
  }

  /** `QuizSchema` errors (what `validate` returns, and `load` raises). */
  function QuizErrors(r: QuizRequest): (e: Errors)
    ensures e == map[] <==>
      && r.teacherId.Given?
      && r.title.Given? && 3 <= |r.title.value| <= 200
      && !r.description.Mistyped?
      && Among(r.classLevel, ClassLevels)
      && Among(r.status, Difficulties)
      && Among(r.subject, Subjects)
      && Among(r.quizType, QuizTypes)
      && (r.startTime.Absent? || r.startTime.Given?)
      && r.durationMinutes.Given? && r.durationMinutes.value >= 1
      && r.questions.Given? && |r.questions.value| >= 1
      && (forall i :: 0 <= i < |r.questions.value| ==> QuestionValid(r.questions.value[i]))
      && r.others <= QuizFields
  {
    Entry("teacher_id", Check(r.teacherId, true, false, NoValidator()))
    + Entry("title", Check(r.title, true, false, (t: string) => 3 <= |t| <= 200))
    + Entry("description", Check(r.description, false, true, NoValidator()))
    + Entry("class_level", Check(r.classLevel, true, false, OneOf(ClassLevels)))
    + Entry("status", Check(r.status, true, false, OneOf(Difficulties)))
    + Entry("Subject", Check(r.subject, true, false, OneOf(Subjects)))
    + Entry("quiz_type", Check(r.quizType, true, false, OneOf(QuizTypes)))
    + Entry("start_time", Check(r.startTime, false, false, NoValidator()))
    + Entry("duration_minutes", Check(r.durationMinutes, true, false, (n: int) => n >= 1))
    + Entry("questions", QuestionsCheck(r.questions))
    + UnknownKeys(r.others, QuizFields)
  }
}

=== FILE: user_guard.dfy ===
/** The decision inside `role_guard`'s wrapper (app/utils/user_guard.py):
    look the caller up by the token's email, then check existence, activity,
    verification and role, in that order; the first failing check answers. */
module UserGuard {
  import opened Fields
  import opened Collections
  import UserModel

  /** The guard's answer: run the handler, refuse with a message and status,
      or fail with an uncaught exception. */
  datatype Decision = Allow | Deny(msg: string, status: int) | Fault(exception: string)

  const NotFoundMsg: string := "User not found"
  const InactiveMsg: string := "User is inactive"
  const UnverifiedMsg: string := "Email not verified"
  const NoRoleMsg: string := "Access denied: insufficient role"

  /** `any(role in allowed_roles for role in user_roles)`, scanning the
      user's roles left to right. */
  function AnyAllowed(userRoles: seq<string>, allowed: seq<string>): (b: bool)
    ensures b <==> exists i :: 0 <= i < |userRoles| && userRoles[i] in allowed
    decreases |userRoles|
  {
    if userRoles == [] then false
    else if userRoles[0] in allowed then true
    else
      var rest := AnyAllowed(userRoles[1..], allowed);
      assert forall i :: 1 <= i < |userRoles| ==> userRoles[i] == userRoles[1..][i - 1];
      rest
  }

  /** The account counts as active: `is_active` absent, or present and true. */
  predicate Active(d: Doc) {
    d.isActive == Missing || d.isActive == Has(true)
  }

  /** The account counts as verified: `verified_email` present and true. */
  predicate Verified(d: Doc) {
    d.verifiedEmail == Has(true)
  }

  /** Some role the account holds is among the allowed ones; an absent
      `roles` holds none. */
  predicate HoldsAllowedRole(d: Doc, allowed: seq<string>) {
    d.roles.Has? && exists i :: 0 <= i < |d.roles.value| && d.roles.value[i] in allowed
  }

  /** The four checks on a looked-up document (`None` when no document
      matched). */
  function Decide(user: Option<Doc>, allowed: seq<string>): (r: Decision)
    ensures user.None? <==> r == Deny(NotFoundMsg, 404)
    ensures r == Deny(InactiveMsg, 403) <==> user.Some? && !Active(user.value)
    ensures r == Deny(UnverifiedMsg, 403) <==>
      user.Some? && Active(user.value) && !Verified(user.value)
    ensures r.Fault? <==>
      user.Some? && Active(user.value) && Verified(user.value) && user.value.roles.Null?
    ensures r == Deny(NoRoleMsg, 403) <==>
      user.Some? && Active(user.value) && Verified(user.value)
      && !user.value.roles.Null? && !HoldsAllowedRole(user.value, allowed)
    ensures r == Allow <==>
      user.Some? && Active(user.value) && Verified(user.value) && HoldsAllowedRole(user.value, allowed)
  {
    match user
    case None => Deny(NotFoundMsg, 404)
    case Some(d) =>
      if !Truthy(d.isActive, true) then Deny(InactiveMsg, 403)
      else if !Truthy(d.verifiedEmail, false) then Deny(UnverifiedMsg, 403)
      else
        match d.roles
        case Null => Fault("TypeError")
        case Missing => Deny(NoRoleMsg, 403)
        case Has(rs) => if AnyAllowed(rs, allowed) then Allow else Deny(NoRoleMsg, 403)
  }

  /** The guard for a request whose token names `identity`. */
  function Authorize(s: Store, identity: string, allowed: seq<string>): (r: Decision)
    ensures identity !in s <==> r == Deny(NotFoundMsg, 404)
    ensures r == Allow <==> identity in s && Active(s[identity]) && Verified(s[identity])
                            && HoldsAllowedRole(s[identity], allowed)
    ensures StoreValid(s) ==> !r.Fault?
  {
    Decide(FindByEmail(s, identity), allowed)
  }

  /** What the wrapped route answers. */
  datatype Response<+R> = Handled(value: R) | Refused(msg: string, status: int) | Crashed(exception: string)

  /** `wrapper(*args, **kwargs)`: the handler runs, on its original
      arguments, exactly when the guard allows. */
  function Guarded<A, R>(s: Store, identity: string, allowed: seq<string>,
                         handler: A -> R, args: A): (r: Response<R>)
    ensures r.Handled? <==> Authorize(s, identity, allowed) == Allow
    ensures r.Handled? ==> r.value == handler(args)
    ensures r.Refused? <==> Authorize(s, identity, allowed).Deny?
    ensures r.Refused? ==> Authorize(s, identity, allowed) == Deny(r.msg, r.status)
    ensures r.Crashed? <==> Authorize(s, identity, allowed).Fault?
  {
    match Authorize(s, identity, allowed)
    case Allow => Handled(handler(args))
    case Deny(msg, status) => Refused(msg, status)
    case Fault(e) => Crashed(e)
  }

  /** With no allowed role, every existing, active, verified account is
      refused for its role. */
  lemma EmptyAllowListDeniesAll(s: Store, identity: string)
    requires StoreValid(s)
    requires identity in s && Active(s[identity]) && Verified(s[identity])
    ensures Authorize(s, identity, []) == Deny(NoRoleMsg, 403)
  {
  }

  /** Inactivity is reported before a missing role: an inactive student
      asking for a teacher route hears "inactive". */
  lemma InactiveBeforeRole(s: Store, identity: string)
    requires identity in s && s[identity].isActive == Has(false)
    requires s[identity].roles == Has([UserModel.DefaultRole])
    ensures Authorize(s, identity, ["teacher"]) == Deny(InactiveMsg, 403)
  {
  }
}

=== FILE: user_model.dfy ===
/** The `User` record of app/models/user.py: its constructor defaults, the
    document `save` builds and inserts, and reading a saved document back. */
module UserModel {
  import opened Fields
  import opened Collections

  /** A `User` object as the constructor leaves it. The password is already
      a digest; the two timestamps are successive clock readings. */
  datatype User = User(
    email: string,
    password: string,
    roles: seq<string>,
    academicLevel: Option<string>,
    schoolInstitution: Option<string>,
    isActive: bool,
    verifiedEmail: bool,
    otp: Option<string>,
    createdAt: int,
    updatedAt: int)

  const DefaultRole: string := "student"

  /** `roles or ["student"]`: `None` and the empty list are falsy. */
  function EffectiveRoles(roles: Option<seq<string>>): (r: seq<string>)
    ensures |r| >= 1
    ensures roles.None? || roles.value == [] ==> r == [DefaultRole]
    ensures roles.Some? && roles.value != [] ==> r == roles.value
  {
    if roles.None? || roles.value == [] then [DefaultRole] else roles.value
  }

  /** `User(...)` with every argument given; `now1` and `now2` are the two
      `datetime.utcnow()` readings, in order. */
  function NewUser(email: string, password: string, roles: Option<seq<string>>,
                   academicLevel: Option<string>, schoolInstitution: Option<string>,
                   isActive: bool, verifiedEmail: bool, otp: Option<string>,
                   now1: int, now2: int): (u: User)
    ensures u.email == email && u.password == password
    ensures |u.roles| >= 1
    ensures roles.Some? && roles.value != [] ==> u.roles == roles.value
    ensures roles.None? || roles.value == [] ==> u.roles == [DefaultRole]
    ensures u.academicLevel == academicLevel && u.schoolInstitution == schoolInstitution
    ensures u.isActive == isActive && u.verifiedEmail == verifiedEmail && u.otp == otp
    ensures u.createdAt == now1 && u.updatedAt == now2
    ensures now1 <= now2 ==> u.createdAt <= u.updatedAt
  {
    User(email, password, EffectiveRoles(roles), academicLevel, schoolInstitution,
         isActive, verifiedEmail, otp, now1, now2)
  }

  /** `User(email, password)` relying on every default. */
  function DefaultUser(email: string, password: string, now1: int, now2: int): (u: User)
    ensures u.roles == [DefaultRole]
    ensures u.isActive && !u.verifiedEmail && u.otp.None?
    ensures u.academicLevel.None? && u.schoolInstitution.None?
  {
    NewUser(email, password, None, None, None, true, false, None, now1, now2)
  }

  /** The ten keys `save` writes. */
  const SavedKeys: set<string> := {
    "email", "password", "roles", "academic_level", "school_institution",
    "is_active", "verified_email", "otp", "created_at", "updated_at"}

  /** The `user_data` dictionary `save` builds: ten keys, `None` attributes
      stored as null, and no OTP timestamp or teacher profile. */
  function ToDoc(u: User): (d: Doc)
    ensures PresentKeys(d) == SavedKeys
    ensures "otp_created_at" !in PresentKeys(d)
    ensures d.email == Has(u.email) && d.password == Has(u.password)
    ensures d.verifiedEmail == Has(u.verifiedEmail) && d.isActive == Has(u.isActive)
  {
    Doc(Has(u.email), Has(u.password), Has(u.roles),
        Stored(u.academicLevel), Stored(u.schoolInstitution),
        Has(u.isActive), Has(u.verifiedEmail), Stored(u.otp), Missing,
        Missing, Missing, Missing, Missing, Missing,
        Has(u.createdAt), Has(u.updatedAt))
  }

  /** Reads a `User` back from a document holding the ten saved keys. */
  function FromDoc(d: Doc): Option<User> {
    if d.email.Has? && d.password.Has? && d.roles.Has? && !d.academicLevel.Missing?
       && !d.schoolInstitution.Missing? && d.isActive.Has? && d.verifiedEmail.Has?
       && !d.otp.Missing? && d.createdAt.Has? && d.updatedAt.Has?
    then
      Some(User(d.email.value, d.password.value, d.roles.value,
                Unstored(d.academicLevel), Unstored(d.schoolInstitution),
                d.isActive.value, d.verifiedEmail.value, Unstored(d.otp),
                d.createdAt.value, d.updatedAt.value))
    else None
  }

  function Unstored<T>(f: Slot<T>): Option<T> {
    if f.Has? then Some(f.value) else None
  }

  /** `save` loses nothing: the document it writes reads back as the user. */
  lemma SaveRoundTrip(u: User)
    ensures FromDoc(ToDoc(u)) == Some(u)
  {
  }

  /** A user's document passes the collection validator exactly when every
      role is one of admin, teacher, student. */
  lemma SavedDocValid(u: User)
    ensures DocValid(ToDoc(u)) <==> KnownRoles(u.roles)
  {
  }

  /** The result of `save`: the collection after `insert_one` together with
      the dictionary returned, or the `WriteError` the validator raises. */
  datatype SaveResult = Inserted(store: Store, data: Doc) | WriteError

  /** `save`: insert the user's document and return the same dictionary. */
  function Save(s: Store, u: User): (r: SaveResult)
    requires u.email !in s
    ensures r.Inserted? <==> KnownRoles(u.roles)
    ensures r.Inserted? ==> r.data == ToDoc(u) && FindByEmail(r.store, u.email) == Some(r.data)
    ensures r.Inserted? ==> r.store.Keys == s.Keys + {u.email}
    ensures r.Inserted? ==> forall k :: k in s ==> r.store[k] == s[k]
    ensures r.Inserted? && StoreValid(s) ==> StoreValid(r.store)
  {
    var d := ToDoc(u);
    SavedDocValid(u);
    match InsertOne(s, d)
    case Some(s') => Inserted(s', d)
    case None => WriteError
  }
}

=== FILE: user_schema.dfy ===
/** The request schemas of app/schemas/user_schema.py, an older variant of
    the auth schemas: registration names `academic_level` and refuses null
    for the optional text fields; login, verify and resend match the auth
    schemas field for field. */
module UserSchema {
  import opened Fields
  import opened Marshmallow
  import AuthSchema

  /** A string field that may be left out but not sent as null, and
      otherwise needs at least `n` characters. */
  predicate OptionalText(f: Input<string>, n: nat) {
    f.Absent? || (f.Given? && |f.value| >= n)
  }

  datatype RegisterRequest = RegisterRequest(
    email: Input<string>,
    password: Input<string>,
    academicLevel: Input<string>,
    schoolInstitution: Input<string>,
    isActive: Input<bool>,
    others: set<string>)   // the keys of the JSON object outside the declared fields

  const RegisterFields: set<string> := {
    "email", "password", "academic_level", "school_institution", "is_active"}

  datatype RegisterData = RegisterData(
    email: string,
    password: string,
    academicLevel: Option<string>,
    schoolInstitution: Option<string>,
    isActive: bool)

  function RegisterErrors(isEmail: string -> bool, r: RegisterRequest): (e: Errors)
    ensures e == map[] <==>
      && AuthSchema.EmailOk(isEmail, r.email)
      && r.password.Given? && |r.password.value| >= 6
      && OptionalText(r.academicLevel, 2)
      && OptionalText(r.schoolInstitution, 2)
      && (r.isActive.Absent? || r.isActive.Given?)
      && r.others <= RegisterFields
    ensures r.academicLevel.Null? ==> "academic_level" in e && e["academic_level"] == NotNull
  {
    Entry("email", AuthSchema.EmailCheck(isEmail, r.email))
    + Entry("password", Check(r.password, true, false, MinLength(6)))
    + Entry("academic_level", Check(r.academicLevel, false, false, MinLength(2)))
    + Entry("school_institution", Check(r.schoolInstitution, false, false, MinLength(2)))
    + Entry("is_active", Check(r.isActive, false, false, NoValidator()))
    + UnknownKeys(r.others, RegisterFields)
  }

  /** `UserRegisterSchema().load(json)`: an absent optional text field is
      absent from the data; `is_active` defaults to true. */
  function LoadRegister(isEmail: string -> bool, r: RegisterRequest): (res: Result<RegisterData, Errors>)
    ensures res.Success? <==> RegisterErrors(isEmail, r) == map[]
    ensures res.Failure? ==> res.error == RegisterErrors(isEmail, r)
    ensures res.Success? ==> isEmail(res.value.email) && |res.value.password| >= 6
    ensures res.Success? ==> res.value.email == r.email.value && res.value.password == r.password.value
    ensures res.Success? ==>
      && res.value.academicLevel == (if r.academicLevel.Given? then Some(r.academicLevel.value) else None)
      && res.value.schoolInstitution == (if r.schoolInstitution.Given? then Some(r.schoolInstitution.value) else None)
    ensures res.Success? ==> res.value.isActive == (r.isActive.Absent? || r.isActive.value)
    ensures res.Success? && res.value.academicLevel.Some? ==> |res.value.academicLevel.value| >= 2
    ensures res.Success? && res.value.schoolInstitution.Some? ==> |res.value.schoolInstitution.value| >= 2
  {
    var e := RegisterErrors(isEmail, r);
    if e != map[] then Failure(e)
    else
      Success(RegisterData(
        r.email.value, r.password.value,
        if r.academicLevel.Given? then Some(r.academicLevel.value) else None,
        if r.schoolInstitution.Given? then Some(r.schoolInstitution.value) else None,
        if r.isActive.Given? then r.isActive.value else true))
  }

  /** Login: an email and a password of any length. */
  function LoginErrors(isEmail: string -> bool, r: AuthSchema.LoginRequest): (e: Errors)
    ensures e == map[] <==>
      AuthSchema.EmailOk(isEmail, r.email) && r.password.Given? && r.others <= AuthSchema.LoginFields
  {
    AuthSchema.LoginErrors(isEmail, r)
  }

  /** Verify: an email and an OTP of exactly six characters. */
  function VerifyErrors(isEmail: string -> bool, r: AuthSchema.VerifyRequest): (e: Errors)
    ensures e == map[] <==>
      AuthSchema.EmailOk(isEmail, r.email) && r.otp.Given? && |r.otp.value| == 6
      && r.others <= AuthSchema.VerifyFields
  {
    AuthSchema.VerifyErrors(isEmail, r)
  }

  /** Resend: an email only. */
  function ResendErrors(isEmail: string -> bool, r: AuthSchema.EmailRequest): (e: Errors)
    ensures e == map[] <==> AuthSchema.EmailOk(isEmail, r.email) && r.others <= AuthSchema.EmailFields
  {
    AuthSchema.EmailRequestErrors(isEmail, r)
  }

  /** The two registration schemas disagree on null: the auth schema loads
      `school_institution: null`, this one refuses it. */
  lemma NullInstitutionOnlyInAuthSchema(isEmail: string -> bool, email: string)
    requires isEmail(email)
    ensures RegisterErrors(isEmail, RegisterRequest(Given(email), Given("secret1"), Absent, Input.Null, Absent, {}))
            == map["school_institution" := NotNull]
    ensures AuthSchema.RegisterErrors(isEmail, AuthSchema.RegisterRequest(
              Given(email), Given("secret1"), Absent, Input.Null, Absent,
              Absent, Absent, Absent, Absent, Absent, {})) == map[]
  {
  }
}

=== FILE: user_service.dfy ===
/** `UserService.register` and `UserService.authenticate`
    (app/services/user_service.py) over the email-keyed collection. The
    password hash, the random OTP draw, the clock and the mail transport are
    parameters: the core cannot see inside them. */
module UserService {
  import opened Fields
  import opened Decimal
  import opened Collections
  import opened UserModel

  /** bcrypt's `generate_password_hash` and `check_password_hash`, left
      uninterpreted; the random salt is folded into `hash`. */
  datatype Hasher = Hasher(hash: string -> string, check: (string, string) -> bool)

  /** The only promise bcrypt makes that the core relies on: a password
      checks against its own digest. */
  ghost predicate Sound(h: Hasher) {
    forall p: string {:trigger h.hash(p)} :: h.check(h.hash(p), p)
  }

  /** What `send_otp_email` reports: sent, or the exception text. */
  datatype MailResult = Delivered | Undelivered(reason: string)

  const OtpLow: int := 100000
  const OtpHigh: int := 999999

  const UserExistsMsg: string := "User already exists"
  /** Flask-Bcrypt's `generate_password_hash` refuses an empty password. */
  const EmptyPasswordError: string := "ValueError"
  const MailFailedPrefix: string := "User created but email failed to send: "
  const UserNotFoundMsg: string := "User not found"
  const BadCredentialsMsg: string := "Invalid credentials"
  const NotVerifiedMsg: string := "Email not verified. Please check your inbox for OTP."

  /** `str(random.randint(100000, 999999))`, given the integer drawn. */
  function Otp(draw: int): (code: string)
    requires OtpLow <= draw <= OtpHigh
    ensures |code| == 6 && AllDigits(code) && code[0] != '0'
    ensures Value(code) == draw
  {
    SixDigitBounds();
    DecimalLength(draw, 6);
    ValueOfDecimal(draw);
    ToDecimal(draw)
  }

  /** Every six-digit code without a leading zero is the OTP of exactly one
      draw, so the codes issued are exactly those strings. */
  lemma OtpCodesAreSixDigitNumerals(code: string)
    requires |code| == 6 && AllDigits(code) && code[0] != '0'
    ensures OtpLow <= Value(code) <= OtpHigh && Otp(Value(code)) == code
  {
    SixDigitBounds();
    ValueBelow(code);
    ValueAtLeast(code);
    DecimalOfValue(code);
  }

  /** The collection after a registration, and its `(user, error)` reply. */
  datatype Registration = Registration(store: Store, reply: Outcome<Doc>)

  /** The document a successful registration inserts: the saved form of
      the new, unverified user with the hashed password and the drawn OTP. */
  function Registered(h: Hasher, email: string, password: string, roles: Option<seq<string>>,
                      academicLevel: Option<string>, schoolInstitution: Option<string>,
                      isActive: bool, draw: int, now1: int, now2: int): Doc
    requires OtpLow <= draw <= OtpHigh
  {
    ToDoc(NewUser(email, h.hash(password), roles, academicLevel, schoolInstitution,
                  isActive, false, Some(Otp(draw)), now1, now2))
  }

  /** `register`: refuse a known email; otherwise hash the password (an
      empty one makes the hasher raise), draw an OTP, save the user, and
      only then send the mail. A failed send does not undo the save. */
  function Register(h: Hasher, s: Store, email: string, password: string,
                    roles: Option<seq<string>>, academicLevel: Option<string>,
                    schoolInstitution: Option<string>, isActive: bool,
                    draw: int, now1: int, now2: int, mail: MailResult): (r: Registration)
    requires OtpLow <= draw <= OtpHigh
    // a known email: refused, nothing written
    ensures email in s ==> r == Registration(s, Err(UserExistsMsg))
    // roles outside the enum: the validator raises, nothing written
    // an empty password: the hasher raises, nothing written
    ensures email !in s && password == "" ==> r == Registration(s, Raised(EmptyPasswordError))
    ensures email !in s && !KnownRoles(EffectiveRoles(roles)) ==> r.store == s && r.reply.Raised?
    // otherwise exactly one new document, whatever the mail outcome
    ensures email !in s && password != "" && KnownRoles(EffectiveRoles(roles)) ==>
      email in r.store &&
      var d := r.store[email];
      && d == Registered(h, email, password, roles, academicLevel, schoolInstitution,
                         isActive, draw, now1, now2)
      && r.store.Keys == s.Keys + {email}
      && d.email == Has(email)
      && d.password == Has(h.hash(password))
      && d.verifiedEmail == Has(false)
      && d.isActive == Has(isActive)
      && d.otp.Has? && |d.otp.value| == 6 && AllDigits(d.otp.value) && Value(d.otp.value) == draw
      && d.roles == Has(EffectiveRoles(roles))
      && d.academicLevel == Stored(academicLevel)
      && d.schoolInstitution == Stored(schoolInstitution)
      && PresentKeys(d) == SavedKeys
      && (mail.Delivered? ==> r.reply == Ok(d))
      && (mail.Undelivered? ==> r.reply == Err(MailFailedPrefix + mail.reason))
    // nothing else changes
    ensures forall k :: k in s ==> k in r.store && r.store[k] == s[k]
    ensures StoreValid(s) ==> StoreValid(r.store)
  {
    if FindByEmail(s, email).Some? then
      Registration(s, Err(UserExistsMsg))
    else if password == "" then
      Registration(s, Raised(EmptyPasswordError))
    else
      var u := NewUser(email, h.hash(password), roles, academicLevel, schoolInstitution,
                       isActive, false, Some(Otp(draw)), now1, now2);
      match Save(s, u)
      case WriteError => Registration(s, Raised("WriteError"))
      case Inserted(s', data) =>
        match mail
        case Delivered => Registration(s', Ok(data))
        case Undelivered(reason) => Registration(s', Err(MailFailedPrefix + reason))
  }

  /** The document is written before the mail is sent: the collection after
      registering is the same whichever way the send goes. */
  lemma PersistBeforeMail(h: Hasher, s: Store, email: string, password: string,
                          roles: Option<seq<string>>, academicLevel: Option<string>,
                          schoolInstitution: Option<string>, isActive: bool,
                          draw: int, now1: int, now2: int, m1: MailResult, m2: MailResult)
    requires OtpLow <= draw <= OtpHigh
    ensures Register(h, s, email, password, roles, academicLevel, schoolInstitution, isActive, draw, now1, now2, m1).store
         == Register(h, s, email, password, roles, academicLevel, schoolInstitution, isActive, draw, now1, now2, m2).store
  {
  }

  /** `authenticate`: lookup, then the password, then verification. A
      document without a password raises `KeyError`; a null one makes
      bcrypt raise `TypeError`. */
  function Authenticate(h: Hasher, s: Store, email: string, password: string): (r: Outcome<Doc>)
    ensures email !in s ==> r == Err(UserNotFoundMsg)
    ensures email in s && s[email].password.Has? && !h.check(s[email].password.value, password)
            ==> r == Err(BadCredentialsMsg)
    ensures email in s && s[email].password.Has? && h.check(s[email].password.value, password)
            ==> r == (if Truthy(s[email].verifiedEmail, false) then Ok(s[email]) else Err(NotVerifiedMsg))
    ensures r.Ok? <==> email in s && s[email].password.Has?
                       && h.check(s[email].password.value, password)
                       && s[email].verifiedEmail == Has(true)
    ensures r.Ok? ==> FindByEmail(s, email) == Some(r.value)
    ensures StoreValid(s) ==> !r.Raised?
  {
    match FindByEmail(s, email)
    case None => Err(UserNotFoundMsg)
    case Some(user) =>
      match user.password
      case Missing => Raised("KeyError")
      case Null => Raised("TypeError")
      case Has(digest) =>
        if !h.check(digest, password) then Err(BadCredentialsMsg)
        else if !Truthy(user.verifiedEmail, false) then Err(NotVerifiedMsg)
        else Ok(user)
  }

  /** A freshly registered account, logged into with the right password,
      is refused only for its unverified email. */
  lemma RegisterThenAuthenticate(h: Hasher, s: Store, email: string, password: string,
                                 roles: Option<seq<string>>, academicLevel: Option<string>,
                                 schoolInstitution: Option<string>, isActive: bool,
                                 draw: int, now1: int, now2: int, mail: MailResult)
    requires Sound(h)
    requires OtpLow <= draw <= OtpHigh
    requires email !in s && password != "" && KnownRoles(EffectiveRoles(roles))
    ensures Authenticate(h, Register(h, s, email, password, roles, academicLevel,
                                     schoolInstitution, isActive, draw, now1, now2, mail).store,
                         email, password) == Err(NotVerifiedMsg)
  {
    var r := Register(h, s, email, password, roles, academicLevel, schoolInstitution,
                      isActive, draw, now1, now2, mail);
    assert h.check(h.hash(password), password);
  }

  /** Registering the same email twice: the second attempt is refused and
      leaves the first registration's collection as it was. */
  lemma RegisterTwice(h: Hasher, s: Store, email: string, p1: string, p2: string,
                      roles: Option<seq<string>>, academicLevel: Option<string>,
                      schoolInstitution: Option<string>, isActive: bool,
                      draw1: int, draw2: int, now1: int, now2: int, now3: int, now4: int,
                      m1: MailResult, m2: MailResult)
    requires OtpLow <= draw1 <= OtpHigh && OtpLow <= draw2 <= OtpHigh
    requires email !in s && p1 != "" && KnownRoles(EffectiveRoles(roles))
    ensures var first := Register(h, s, email, p1, roles, academicLevel, schoolInstitution,
                                  isActive, draw1, now1, now2, m1);
            Register(h, first.store, email, p2, roles, academicLevel, schoolInstitution,
                     isActive, draw2, now3, now4, m2) == Registration(first.store, Err(UserExistsMsg))
  {
  }
}
